=== FILE: README.md ===
# Order views of the pretix control panel, modelled in Dafny

pretix is a ticket shop. In its control panel, operators act on a single
order through the views in `src/pretix/control/views/orders.py`. This project
models what those views decide and what they change:

- **Status transitions** (`OrderTransition`). The operator can mark an order
  paid, cancel it, mark it unpaid, mark it expired or refund it. Each action
  is allowed only from certain statuses. Status codes are one letter:
  `n` pending, `p` paid, `e` expired, `c` canceled, `r` refunded.
- **Invoices** (`OrderInvoiceCreate`, `OrderInvoiceRegenerate`,
  `OrderInvoiceReissue`). The operator can create the first invoice,
  regenerate an invoice that is not canceled, or reissue it. Reissuing
  cancels the invoice and creates a new one.
- **Payment-term extension** (`OrderExtend`). A pending order gets a new
  deadline. An expired order is revived to pending, but only when the event
  lock is acquired and every position is still available.
- **Order changes** (`OrderChange`). An add form and one form per position
  are turned into operations queued on an order change manager. The
  manager's commit is reached only when every form went through. The
  `itemvar` value is split into an item id and an optional variation id.
- **Code normalisation** (`OrderGo`). A code typed into the "go to order" box
  is upper-cased and stripped. The event slug is then removed from its
  front, and after that one dash.

## Structure

Modules:

- `Wrappers`: `Option`.
- `OrderModel`: statuses and their codes, audit-log entries, invoice
  documents, and `OrderState`. `OrderState` is a snapshot of the order's
  fields.
- `Transitions`, `Extension`, `Invoicing`: each POST handler as a function
  from the old `OrderState` to a `Step`. A `Step` is the new state together
  with what the operator is told. Lemmas about each function sit beside it.
- `OrderViews`: class `Order`, whose fields the handlers update in place.
  Each handler method is proved to leave exactly the state, and report
  exactly the outcome, that the module's function gives. The methods also
  keep the invoice documents well formed.
- `OrderChange`: class `ChangeManager` (the operation queue and the commit).
  It also holds the `_process_add` step, the `_process_change` loop and
  `post`. These are imperative methods, proved against the functions
  `AddStep`, `ChangeSteps` and `ChangeRequest`.
- `Codes`: the pure string helpers. These are `str.upper`, `str.strip`,
  the `itemvar` split and `OrderGo`'s normalisation.

Collaborators whose code is outside this file become parameters (oracles):

- `mark_order_paid` becomes `PaidOutcome`: paid, quota exceeded, or paid but
  the mail failed.
- `event.lock()` becomes `Lock`.
- `_is_still_available` becomes `Availability`.
- `form.is_valid()` becomes a boolean.
- An `OrderError` raised by the change manager's `add_position`,
  `change_item`, `change_price`, `change_subevent`, `cancel` or `commit`
  becomes `Option<string>`.
- `invoice_qualified` and the `invoice_generate` setting become parameters.

## Model

| member | source | states |
|---|---|---|
| OrderModel.StatusOf | src/pretix/control/views/orders.py:200-223 | a recognised request code is the code of the status it selects |
| OrderModel.StatusCodeRoundTrip | src/pretix/control/views/orders.py:200-223 | every status's code selects that status again |
| OrderModel.FindInvoice | src/pretix/control/views/orders.py:268-271 | `invoices.get(pk=id)` finds a document with that id; when it finds none, no document has it |
| OrderModel.NextInvoiceId | src/pretix/control/views/orders.py:253-256 | the id of a newly generated document differs from every existing id |
| Transitions.Transition | src/pretix/control/views/orders.py:198-227 | nothing is reported as ignored unless no branch applies; a status change goes to the target of the branch taken; a recorded payment sets the manual flag (`manual=True`), and cancelling keeps it |
| Transitions.MarkOrderPaid | src/pretix/control/views/orders.py:202-208 | a quota failure changes nothing; otherwise the order is paid with the given manual flag and one `paid` entry; the deadline and invoices stay; the mail warning is reported exactly when the mail failed |
| Transitions.CancelOrder | src/pretix/control/views/orders.py:210 | the order is canceled with one `canceled` entry; the manual flag, deadline and invoices stay |
| Transitions.Dispatch | src/pretix/control/views/orders.py:198-227 | the branch taken leads to the status named by the requested code |
| Transitions.DispatchFollowsLifeCycle | src/pretix/control/views/orders.py:198-227 | a request is acted on if and only if it names a life-cycle successor of the current status (pending or expired to paid; pending to canceled or expired; paid to pending or refunded) |
| Transitions.TransitionPage | src/pretix/control/views/orders.py:229-241 | GET shows the cancel page if and only if POST would cancel, and the refund page if and only if POST would refund; everything else is "method not allowed" |
| Transitions.TransitionOutsideTable | src/pretix/control/views/orders.py:198-227 | any other (status, code) pair leaves the order and its log unchanged |
| Transitions.TransitionFollowsLifeCycle | src/pretix/control/views/orders.py:198-227 | after a POST the status is the old one or a life-cycle successor of it |
| Transitions.TransitionLogsOneEntryPerChange | src/pretix/control/views/orders.py:198-227 | a status change appends exactly one log entry, whose action type names the new status; no status change, no entry |
| Transitions.TransitionKeepsDeadlineAndInvoices | src/pretix/control/views/orders.py:198-227 | the view's own branches never touch the deadline or the invoices (nor do `mark_order_paid` and `cancel_order` as modelled; see "Left out") |
| Transitions.QuotaFailureKeepsOrder | src/pretix/control/views/orders.py:200-204 | when the quota is exceeded, the order stays as it was and is not paid |
| Transitions.MailFailureStillPaid | src/pretix/control/views/orders.py:205-206 | a failed confirmation mail leaves the same paid state as a successful payment |
| Transitions.MarkPaidEffect | src/pretix/control/views/orders.py:201-208 | marking paid is `mark_order_paid` with `manual=True`; a recorded payment is flagged as manual |
| Transitions.CancelEffect | src/pretix/control/views/orders.py:209-211 | cancelling a pending order is `cancel_order` alone: status canceled, one `canceled` entry, everything else (the manual flag included) unchanged |
| Transitions.MarkUnpaidEffect | src/pretix/control/views/orders.py:212-216 | marking unpaid sets pending status, sets the manual-payment flag, and logs `unpaid`; nothing else changes |
| Transitions.MarkExpiredEffect | src/pretix/control/views/orders.py:218-221 | marking expired sets expired status and logs `expired`; nothing else changes |
| Extension.Extend | src/pretix/control/views/orders.py:386-421 | the order changes only for a valid form that changed the term or revived the order; "server busy" only for an expired order whose lock timed out; "not available" only for an expired order, with the availability check's reason |
| Extension.ExtendGate | src/pretix/control/views/orders.py:417-421 | orders that are neither pending nor expired are refused and unchanged |
| Extension.ExtendPending | src/pretix/control/views/orders.py:388-394 | a pending order keeps its status and gets the new deadline, with one `expirychanged` entry (no state change) |
| Extension.ExtendExpired | src/pretix/control/views/orders.py:395-412 | an expired order becomes pending if and only if the lock was acquired and all positions are available; then it gets the new deadline and one entry with a state change; otherwise it is unchanged |
| Extension.ExtendFrame | src/pretix/control/views/orders.py:386-415 | whatever happens, only the status (to pending), the deadline (to the requested one) and at most one log entry change |
| Invoicing.AddInvoice | src/pretix/control/views/orders.py:253 | one new uncanceled document is appended, with an id no existing document has; the old documents stay |
| Invoicing.AddCancellation | src/pretix/control/views/orders.py:299 | one cancellation document for the invoice is appended, with a fresh id; the invoice is then canceled |
| Invoicing.CreateInvoice | src/pretix/control/views/orders.py:247-258 | an invoice is generated if and only if the setting allows it, the order qualifies and it has no invoice document; otherwise nothing changes; only the invoice documents and the log can change |
| Invoicing.RegenerateInvoice | src/pretix/control/views/orders.py:267-281 | the invoice is regenerated if and only if it exists and is not canceled; success appends exactly the `regenerated` entry and changes nothing else; otherwise nothing changes |
| Invoicing.ReissueInvoice | src/pretix/control/views/orders.py:290-305 | the invoice is reissued if and only if it exists and is not canceled, and it is canceled afterwards; otherwise nothing changes; only the invoice documents and the log can change |
| Invoicing.CreateRefusedWhenInvoiceExists | src/pretix/control/views/orders.py:247-251 | no invoice is created while the order has any invoice document |
| Invoicing.CreateAddsOneInvoice | src/pretix/control/views/orders.py:247-257 | a created invoice is the only document, is not canceled, is reported, and is logged once under its id; status, manual flag and deadline stay |
| Invoicing.CanceledInvoiceRefused | src/pretix/control/views/orders.py:273-298 | a canceled invoice can be neither regenerated nor reissued; the order is unchanged |
| Invoicing.RegenerateKeepsDocuments | src/pretix/control/views/orders.py:267-281 | regenerating keeps the documents as they are; it succeeds if and only if the order afterwards is the old one plus exactly the `regenerated` entry |
| Invoicing.ReissueEffect | src/pretix/control/views/orders.py:290-305 | reissuing keeps the old documents, adds one cancellation of the invoice and one new invoice with a fresh id that is not canceled, and logs the new invoice; status, manual flag and deadline stay |
| Invoicing.AddInvoiceWellFormed | src/pretix/control/views/orders.py:253 | generating an invoice keeps ids distinct and cancellations valid |
| Invoicing.AddCancellationWellFormed | src/pretix/control/views/orders.py:299 | cancelling a known invoice that is not canceled keeps ids distinct and never cancels a document twice |
| Invoicing.InvoiceActionsKeepWellFormed | src/pretix/control/views/orders.py:247-305 | all three invoice views keep the invoice documents well formed |
| OrderViews.Order.constructor | src/pretix/control/views/orders.py:78-85 | the order the views load holds exactly the given state, whose invoice documents are well formed, and is valid |
| OrderViews.Order.LogAction | src/pretix/control/views/orders.py:216 | the audit log is only appended to |
| OrderViews.Order.RecordPayment | src/pretix/control/views/orders.py:202-208 | mark_order_paid changes the order exactly as `MarkOrderPaid` says |
| OrderViews.Order.RecordCancellation | src/pretix/control/views/orders.py:210 | cancel_order changes the order exactly as `CancelOrder` says |
| OrderViews.Order.PostTransition | src/pretix/control/views/orders.py:198-227 | the in-place handler ends in the state, and reports the outcome, given by `Transition`; it keeps the invoice invariant |
| OrderViews.Order.PostExtend | src/pretix/control/views/orders.py:386-421 | the in-place handler ends in the state and outcome given by `Extend` |
| OrderViews.Order.GenerateInvoice | src/pretix/control/views/orders.py:253 | one new invoice with the next id is appended |
| OrderViews.Order.GenerateCancellation | src/pretix/control/views/orders.py:299 | one cancellation document for the invoice is appended |
| OrderViews.Order.PostInvoiceCreate | src/pretix/control/views/orders.py:247-258 | the in-place handler ends in the state and outcome given by `CreateInvoice` and keeps the invoice invariant |
| OrderViews.Order.PostInvoiceRegenerate | src/pretix/control/views/orders.py:267-281 | the in-place handler ends in the state and outcome given by `RegenerateInvoice` |
| OrderViews.Order.PostInvoiceReissue | src/pretix/control/views/orders.py:290-305 | the in-place handler ends in the state and outcome given by `ReissueInvoice` and keeps the invoice invariant |
| OrderChange.Queue | src/pretix/control/views/orders.py:480-486 | a manager call continues if and only if it raises no OrderError; it then queues exactly that operation, otherwise nothing; it never crashes |
| OrderChange.AddStep | src/pretix/control/views/orders.py:464-487 | the add form goes through if and only if it is valid and either adds nothing, or adds a parsable `itemvar` that the manager accepts; it crashes exactly when a valid add has an `itemvar` with two or more dashes; an accepted add queues exactly one `AddPosition` with the parsed item and variation and the form's price, `addon_to` and subevent; otherwise nothing is queued |
| OrderChange.PositionStep | src/pretix/control/views/orders.py:491-516 | the loop continues past a position if and only if its form is valid and it keeps the position, or its `itemvar` parses and the manager raises no OrderError; it crashes exactly on a valid product change with two or more dashes; when it continues it queued exactly `ChosenOperation` for that position; an invalid form stops |
| OrderChange.ChosenOperation | src/pretix/control/views/orders.py:494-512 | the operation each choice of the form queues: change item (parsed item and variation), change price, change subevent, cancel, or none |
| OrderChange.ChangeSteps | src/pretix/control/views/orders.py:489-517 | the loop queues at most one operation per position |
| OrderChange.ChangeStepsConcat | src/pretix/control/views/orders.py:489-517 | processing a + b is processing a, then b only if a continued |
| OrderChange.ChangeStepsSnoc | src/pretix/control/views/orders.py:489-517 | one more position after a list that continued adds that position's operations |
| OrderChange.ChangeStepsStopped | src/pretix/control/views/orders.py:489-517 | once the loop has returned, later positions make no difference |
| OrderChange.ChangeStepsContinue | src/pretix/control/views/orders.py:489-517 | the loop finishes if and only if every position continues |
| OrderChange.StopsAtFirstFailure | src/pretix/control/views/orders.py:489-517 | the loop stops at the first position that does not continue; what was queued comes from the positions before it |
| OrderChange.ChangeStepsTargets | src/pretix/control/views/orders.py:489-517 | every queued change operation targets a listed position and is not an addition |
| OrderChange.ChangeRequest | src/pretix/control/views/orders.py:439-534 | a manager is created if and only if the order is pending or paid; otherwise the request is refused, queues nothing and commits nothing |
| OrderChange.Post | src/pretix/control/views/orders.py:519-534 | commit is called if and only if both steps continued; the outcome is "changed" if and only if commit was called without error; it is "crashed" exactly when a step raised; the queue holds the add's operations, then the loop's only if the add continued |
| OrderChange.ChangeGate | src/pretix/control/views/orders.py:439-443 | orders that are neither pending nor paid are refused before a manager exists |
| OrderChange.CommitOnlyWhenClean | src/pretix/control/views/orders.py:519-534 | commit is called if and only if the order is pending or paid, the add form went through and every position's form went through |
| OrderChange.AddFailureQueuesNothing | src/pretix/control/views/orders.py:519-523 | when the add form fails, no position is processed, nothing is queued and nothing is committed |
| OrderChange.ChangedQueuesAll | src/pretix/control/views/orders.py:519-532 | a successful change committed the added position, if any, followed by every position's operation in order |
| OrderChange.ChangeManager.constructor | src/pretix/control/views/orders.py:520 | a new manager has an empty queue and has not committed |
| OrderChange.ChangeManager.Queue | src/pretix/control/views/orders.py:480-486 | an operation is queued if and only if the manager raises no OrderError |
| OrderChange.ChangeManager.Commit | src/pretix/control/views/orders.py:525-530 | commit succeeds if and only if it raises no OrderError; the queue is unchanged |
| OrderChange.ProcessAdd | src/pretix/control/views/orders.py:464-487 | `_process_add` returns the gate and queues the operations given by `AddStep` |
| OrderChange.ProcessPosition | src/pretix/control/views/orders.py:491-516 | one loop round returns the gate and queues the operation given by `PositionStep` |
| OrderChange.ProcessChange | src/pretix/control/views/orders.py:489-517 | `_process_change` returns the gate and queues the operations given by `ChangeSteps` |
| OrderChange.PostChange | src/pretix/control/views/orders.py:519-534 | dispatch and post report the outcome, and leave the queue and commit flag, given by `ChangeRequest` |
| Codes.Upper | src/pretix/control/views/orders.py:752 | upper-casing keeps the length |
| Codes.UpperNoLower | src/pretix/control/views/orders.py:752 | upper-casing leaves no lower-case letter |
| Codes.UpperIdempotent | src/pretix/control/views/orders.py:752 | upper-casing twice is upper-casing once |
| Codes.UpperConcat | src/pretix/control/views/orders.py:752 | upper-casing distributes over concatenation |
| Codes.TrimStart | src/pretix/control/views/orders.py:752 | `lstrip` returns a suffix that does not begin with white space |
| Codes.TrimStartRemovesSpace | src/pretix/control/views/orders.py:752 | what `lstrip` removes is white space |
| Codes.TrimEnd | src/pretix/control/views/orders.py:752 | `rstrip` returns a prefix that does not end with white space |
| Codes.TrimEndRemovesSpace | src/pretix/control/views/orders.py:752 | what `rstrip` removes is white space |
| Codes.Strip | src/pretix/control/views/orders.py:752 | `strip` returns nothing longer than its argument, neither starting nor ending with white space |
| Codes.StripPadding | src/pretix/control/views/orders.py:752 | `strip` ignores white space added around its argument |
| Codes.TrimStartPadding | src/pretix/control/views/orders.py:752 | `lstrip` ignores white space added before its argument |
| Codes.TrimEndPadding | src/pretix/control/views/orders.py:752 | `rstrip` ignores white space added after its argument |
| Codes.NormalizeCode | src/pretix/control/views/orders.py:752-757 | the normalised code is a suffix of the stripped upper-cased input, at most the slug and one dash shorter |
| Codes.CutSlug | src/pretix/control/views/orders.py:754-757 | cutting the slug and the dash leaves a suffix, at most the slug and one character shorter |
| Codes.NormalizedCodeIsUpper | src/pretix/control/views/orders.py:752-757 | the normalised code holds no lower-case letter |
| Codes.NormalizeFullCode | src/pretix/control/views/orders.py:752-757 | `<slug>-<CODE>`, typed in any case, normalises to the order code |
| Codes.NormalizeBareCode | src/pretix/control/views/orders.py:752-757 | a bare code that does not begin with the slug is kept as typed (upper-cased) |
| Codes.NormalizeCutsSlugFromBareCode | src/pretix/control/views/orders.py:754-755 | a bare code that begins with the upper-cased slug loses that prefix |
| Codes.NormalizeIgnoresCase | src/pretix/control/views/orders.py:752-757 | normalisation ignores the case of the input |
| Codes.NormalizeIgnoresPadding | src/pretix/control/views/orders.py:752-757 | normalisation ignores white space around the input |
| Codes.Occurrences | src/pretix/control/views/orders.py:469-470 | the count of a character is zero if and only if it does not occur |
| Codes.SplitItemVar | src/pretix/control/views/orders.py:469-472 | no dash gives the value and no variation; two or more dashes make the unpacking raise; one dash splits around it into two dash-free parts |
| Codes.SplitJoin | src/pretix/control/views/orders.py:469-472 | splitting undoes joining an item and variation without dashes |
| Codes.ParseItemVar | src/pretix/control/views/orders.py:469-478 | the lookup ids exist if and only if there are fewer than two dashes; a variation is looked up only when its id is non-empty, and the ids rebuild the value |
| Codes.ParseTrailingDash | src/pretix/control/views/orders.py:469-478 | `item-` selects the item without a variation |

## Left out

- Django plumbing is not modelled: requests, responses, redirects,
  templates, messages, permissions and database saves. The model records
  what the operator is told as an outcome value.
- Mail is not modelled. This covers the `send_email` flag passed to
  `cancel_order` and any mail that the change manager sends.
- `mark_order_paid`, `cancel_order`, `generate_invoice`,
  `generate_cancellation`, `regenerate_invoice` and `OrderChangeManager` are
  not part of this model. Only what the views rely on is modelled:
  - marking paid sets the status, the manual flag and one `paid` entry;
  - cancelling sets the status and one `canceled` entry;
  - generating a document appends it with a fresh id;
  - regenerating rebuilds the invoice under its own id;
  - the manager queues operations or raises `OrderError`.

  What commit does to positions and totals is left out, and so is any lock
  timeout inside these functions.
- Transitions.MarkOrderPaid: only the status, the manual flag and the
  `paid` log entry are modelled. `mark_order_paid` is not part of this
  model, and any invoice it generates (the `invoice_generate` setting
  `paid`) is left out. The model's payment therefore never touches the
  invoices.
- Transitions.CancelOrder: only the status and the `canceled` log entry are
  modelled. `cancel_order` is not part of this model. Any cancellation
  document it writes for the order's invoice is left out, and so is an
  `OrderError` it may raise. The model's cancellation therefore never
  touches the invoices and always succeeds.
- Transitions.Transition: for a refund, the model records only that the
  payment provider was asked. What the provider does to the order is not
  modelled, and the order is left as it was.
- Invoice ids are global database keys in pretix. Here they come from
  `NextInvoiceId`, which is fresh within the order.
- `Item.objects.get` and `ItemVariation.objects.get` are not modelled. An
  unknown item or variation id raises `DoesNotExist`, and nothing catches
  it; the model keeps the ids as strings.
- `OrderGo.get_order` is not modelled: the database lookup, its second try
  with `Order.normalize_code`, and the "no order" message. The model ends
  at the code that is looked up.
- Codes.Upper: it upper-cases ASCII letters only. Python's `str.upper`
  also maps other scripts and can change the length (`ß` becomes `SS`).
  Event slugs are ASCII, which the slug cut by `len(slug)` relies on.
- OrderViews.Order.PostExtend: the model assumes `ExtendForm` is a model form
  bound to the order, so validating it already puts the new deadline on the
  order. The logged deadline is therefore the new one in both branches.
  When the view returns without saving, unsaved changes to the order are
  not kept in the model.
- The other views in the file are not modelled: exports, item listings,
  contact, locale and comment changes, resending the link, sending mails,
  mail history, download of invoices and the overview. They only show
  data or change fields that the modelled operations never read.
- `OrderExtend.dispatch` passes `*kwargs` where it means `*args`. The
  extra positional arguments are not used, so the model does not capture it.
- Regenerating an invoice does not add a cancellation document in this
  model. The code rebuilds the invoice in place. A cancellation document is
  added only on reissue, and the model follows the code.

=== FILE: codes.dfy ===
/**
 * The two string helpers of the order views: splitting an `itemvar` form value
 * into an item id and an optional variation id, and normalising an order code
 * typed into the "go to order" box.
 */
module Codes {
  import opened Wrappers

  // ---------------------------------------------------------------------------
  // Character classes
  // ---------------------------------------------------------------------------

  /** Python's `str.isspace()`: the code points `str.strip()` removes. */
  predicate IsSpace(c: char) {
    var n := c as int;
    n == 0x20 || 0x09 <= n <= 0x0D || 0x1C <= n <= 0x1F || n == 0x85 || n == 0xA0
    || n == 0x1680 || 0x2000 <= n <= 0x200A || n == 0x2028 || n == 0x2029
    || n == 0x202F || n == 0x205F || n == 0x3000
  }

  predicate IsLower(c: char) {
    'a' <= c <= 'z'
  }

  /** Upper-casing of one character (ASCII letters only). */
  function UpperChar(c: char): char {
    if IsLower(c) then (c as int - 32) as char else c
  }

  /** `s.upper()` on ASCII letters; every other character is kept. */
  function Upper(s: string): (r: string)
    ensures |r| == |s|
  {
    if s == [] then [] else [UpperChar(s[0])] + Upper(s[1..])
  }

  predicate NoLower(s: string) {
    forall i :: 0 <= i < |s| ==> !IsLower(s[i])
  }

  predicate StartsWith(s: string, prefix: string) {
    |prefix| <= |s| && s[..|prefix|] == prefix
  }

  // ---------------------------------------------------------------------------
  // str.strip()
  // ---------------------------------------------------------------------------

  /** `s.lstrip()`: the suffix of `s` after its leading white space. */
  function TrimStart(s: string): (r: string)
    ensures |r| <= |s| && r == s[|s| - |r|..]
    ensures r == [] || !IsSpace(r[0])
  {
    if s != [] && IsSpace(s[0]) then TrimStart(s[1..]) else s
  }

  /** `s.rstrip()`: the prefix of `s` before its trailing white space. */
  function TrimEnd(s: string): (r: string)
    ensures |r| <= |s| && r == s[..|r|]
    ensures r == [] || !IsSpace(r[|r| - 1])
  {
    if s != [] && IsSpace(s[|s| - 1]) then TrimEnd(s[..|s| - 1]) else s
  }

  /** What `lstrip()` removes is white space. */
  lemma {:induction false} TrimStartRemovesSpace(s: string)
    ensures AllSpace(s[..|s| - |TrimStart(s)|])
  {
    if s != [] && IsSpace(s[0]) {
      TrimStartRemovesSpace(s[1..]);
      var k := |s| - |TrimStart(s)|;
      forall i | 0 <= i < k ensures IsSpace(s[..k][i]) {
        if i > 0 {
          assert s[..k][i] == s[1..][..k - 1][i - 1];
        }
      }
    }
  }

  /** What `rstrip()` removes is white space. */
  lemma {:induction false} TrimEndRemovesSpace(s: string)
    ensures AllSpace(s[|TrimEnd(s)|..])
  {
    if s != [] && IsSpace(s[|s| - 1]) {
      var p := s[..|s| - 1];
      TrimEndRemovesSpace(p);
      var k := |TrimEnd(s)|;
      forall i | 0 <= i < |s| - k ensures IsSpace(s[k..][i]) {
        if k + i < |s| - 1 {
          assert s[k..][i] == p[k..][i];
        }
      }
    }
  }

  /** `s.strip()`. */
  function Strip(s: string): (r: string)
    ensures |r| <= |s|
    ensures r == [] || (!IsSpace(r[0]) && !IsSpace(r[|r| - 1]))
  {
    TrimEnd(TrimStart(s))
  }

  /** Leading white space of a concatenation comes from its first part first. */
  lemma {:induction false} TrimStartConcat(s: string, t: string)
    ensures TrimStart(s + t) == if TrimStart(s) == [] then TrimStart(t) else TrimStart(s) + t
  {
    if s == [] {
      assert s + t == t;
    } else if IsSpace(s[0]) {
      assert (s + t)[1..] == s[1..] + t;
      TrimStartConcat(s[1..], t);
    }
  }

  /** Trailing white space of a concatenation comes from its last part first. */
  lemma {:induction false} TrimEndConcat(s: string, t: string)
    ensures TrimEnd(s + t) == if TrimEnd(t) == [] then TrimEnd(s) else s + TrimEnd(t)
  {
    if t == [] {
      assert s + t == s;
    } else if IsSpace(t[|t| - 1]) {
      assert (s + t)[..|s + t| - 1] == s + t[..|t| - 1];
      TrimEndConcat(s, t[..|t| - 1]);
    }
  }

  predicate AllSpace(s: string) {
    forall i :: 0 <= i < |s| ==> IsSpace(s[i])
  }

  /** White space around the input does not change what `strip()` returns. */
  lemma {:induction false} StripPadding(pre: string, s: string, post: string)
    requires AllSpace(pre) && AllSpace(post)
    ensures Strip(pre + s + post) == Strip(s)
  {
    assert pre + s + post == pre + (s + post);
    TrimStartPadding(pre, s + post);
    assert TrimStart(pre + s + post) == TrimStart(s + post);
    TrimStartConcat(s, post);
    if TrimStart(s) == [] {
      AllSpaceTrims(post);
      assert TrimStart(s + post) == [];
    } else {
      assert TrimStart(s + post) == TrimStart(s) + post;
      TrimEndPadding(TrimStart(s), post);
    }
  }

  /** White space before the argument does not change what `lstrip()` returns. */
  lemma {:induction false} TrimStartPadding(pre: string, s: string)
    requires AllSpace(pre)
    ensures TrimStart(pre + s) == TrimStart(s)
  {
    AllSpaceTrims(pre);
    TrimStartConcat(pre, s);
  }

  /** White space after the argument does not change what `rstrip()` returns. */
  lemma {:induction false} TrimEndPadding(s: string, post: string)
    requires AllSpace(post)
    ensures TrimEnd(s + post) == TrimEnd(s)
  {
    AllSpaceTrims(post);
    TrimEndConcat(s, post);
  }

  lemma {:induction false} AllSpaceTrims(s: string)
    requires AllSpace(s)
    ensures TrimStart(s) == [] && TrimEnd(s) == []
  {
    if s != [] {
      AllSpaceTrims(s[1..]);
      AllSpaceTrims(s[..|s| - 1]);
    }
  }

  // ---------------------------------------------------------------------------
  // Order-code normalisation (OrderGo.get)
  // ---------------------------------------------------------------------------

  /**
   * The code looked up by the "go to order" box: upper-cased and stripped,
   * without the event slug as prefix and then without one leading dash.
   */
  function NormalizeCode(raw: string, slug: string): (code: string)
    ensures |code| <= |Strip(Upper(raw))| <= |code| + |slug| + 1
    ensures code == Strip(Upper(raw))[|Strip(Upper(raw))| - |code|..]
  {
    CutSlug(Strip(Upper(raw)), slug)
  }

  /** The slug prefix, then one leading dash, removed from the cleaned input `t`. */
  function CutSlug(t: string, slug: string): (code: string)
    ensures |code| <= |t| <= |code| + |slug| + 1
    ensures code == t[|t| - |code|..]
  {
    var u := if StartsWith(t, Upper(slug)) then t[|slug|..] else t;
    if StartsWith(u, "-") then u[1..] else u
  }

  /** A normalised code holds no lower-case letter. */
  lemma {:induction false} NormalizedCodeIsUpper(raw: string, slug: string)
    ensures NoLower(NormalizeCode(raw, slug))
  {
    UpperNoLower(raw);
    StripNoLower(Upper(raw));
    CutSlugNoLower(Strip(Upper(raw)), slug);
  }

  lemma {:induction false} StripNoLower(s: string)
    requires NoLower(s)
    ensures NoLower(Strip(s))
  {
    SliceNoLower(s, TrimStart(s), Strip(s));
  }

  lemma {:induction false} CutSlugNoLower(t: string, slug: string)
    requires NoLower(t)
    ensures NoLower(CutSlug(t, slug))
  {
    var code := CutSlug(t, slug);
    SliceNoLower(t, code, code);
  }

  /** Every prefix of a suffix of a string without lower-case letters has none either. */
  lemma {:induction false} SliceNoLower(s: string, t: string, u: string)
    requires NoLower(s)
    requires |t| <= |s| && t == s[|s| - |t|..]
    requires |u| <= |t| && u == t[..|u|]
    ensures NoLower(u)
  {
    forall i | 0 <= i < |u| ensures !IsLower(u[i]) {
      assert u[i] == s[|s| - |t| + i];
    }
  }

  /** The characters pretix order codes are made of. */
  predicate IsOrderCode(code: string) {
    code != [] && forall i :: 0 <= i < |code| ==> 'A' <= code[i] <= 'Z' || '0' <= code[i] <= '9'
  }

  /** Upper-casing leaves no lower-case letter behind. */
  lemma {:induction false} UpperNoLower(s: string)
    ensures NoLower(Upper(s))
  {
    if s != [] {
      UpperNoLower(s[1..]);
      assert Upper(s) == [UpperChar(s[0])] + Upper(s[1..]);
    }
  }

  lemma {:induction false} UpperIdempotent(s: string)
    ensures Upper(Upper(s)) == Upper(s)
  {
    if s != [] {
      UpperIdempotent(s[1..]);
      assert Upper(s)[1..] == Upper(s[1..]);
    }
  }

  lemma {:induction false} UpperConcat(s: string, t: string)
    ensures Upper(s + t) == Upper(s) + Upper(t)
  {
    if s == [] {
      assert s + t == t;
    } else {
      assert (s + t)[1..] == s[1..] + t;
      UpperConcat(s[1..], t);
    }
  }

  /** White space has no case. */
  lemma {:induction false} UpperKeepsSpace(s: string)
    requires AllSpace(s)
    ensures Upper(s) == s
  {
    if s != [] {
      UpperKeepsSpace(s[1..]);
    }
  }

  /** A string with no white space at either end is its own `strip()`. */
  lemma {:induction false} StripUnpadded(s: string)
    requires s != [] && !IsSpace(s[0]) && !IsSpace(s[|s| - 1])
    ensures Strip(s) == s
  {
  }

  /**
   * The full code as pretix prints it, `<SLUG>-<CODE>`, typed in any case,
   * normalises to the order code.
   */
  lemma {:induction false} NormalizeFullCode(raw: string, slug: string, code: string)
    requires slug == [] || !IsSpace(slug[0])
    requires IsOrderCode(code)
    requires Upper(raw) == Upper(slug) + "-" + code
    ensures NormalizeCode(raw, slug) == code
  {
    var t := Upper(slug) + "-" + code;
    assert t[0] == if slug == [] then '-' else UpperChar(slug[0]);
    assert t[|t| - 1] == code[|code| - 1];
    StripUnpadded(t);
    CutSlugFull(slug, code);
  }

  lemma {:induction false} CutSlugFull(slug: string, code: string)
    ensures CutSlug(Upper(slug) + "-" + code, slug) == code
  {
    var t := Upper(slug) + "-" + code;
    assert StartsWith(t, Upper(slug)) by {
      assert t[..|slug|] == Upper(slug);
    }
    var u := t[|slug|..];
    assert u == "-" + code;
    assert StartsWith(u, "-");
    assert u[1..] == code;
  }

  /** A bare order code that does not begin with the slug is found as it is. */
  lemma {:induction false} NormalizeBareCode(raw: string, slug: string, code: string)
    requires IsOrderCode(code)
    requires Upper(raw) == code
    requires !StartsWith(code, Upper(slug))
    ensures NormalizeCode(raw, slug) == code
  {
    StripUnpadded(code);
    assert !StartsWith(code, "-");
  }

  /**
   * The slug is cut whenever the upper-cased input begins with it, even when
   * what was typed is a bare code that merely starts with the same letters.
   */
  lemma {:induction false} NormalizeCutsSlugFromBareCode(raw: string, slug: string, rest: string)
    requires IsOrderCode(Upper(slug) + rest)
    requires Upper(raw) == Upper(slug) + rest
    ensures NormalizeCode(raw, slug) == rest
  {
    var t := Upper(slug) + rest;
    assert !IsSpace(t[0]) && !IsSpace(t[|t| - 1]);
    StripUnpadded(t);
    if rest != [] {
      assert rest[0] == t[|slug|];
    }
    CutSlugPrefix(slug, rest);
  }

  lemma {:induction false} CutSlugPrefix(slug: string, rest: string)
    requires rest == [] || rest[0] != '-'
    ensures CutSlug(Upper(slug) + rest, slug) == rest
  {
    var t := Upper(slug) + rest;
    assert t[..|slug|] == Upper(slug);
    assert t[|slug|..] == rest;
  }

  /** Normalisation ignores the case of the input. */
  lemma {:induction false} NormalizeIgnoresCase(raw: string, slug: string)
    ensures NormalizeCode(Upper(raw), slug) == NormalizeCode(raw, slug)
  {
    UpperIdempotent(raw);
  }

  /** Normalisation ignores white space around the input. */
  lemma {:induction false} NormalizeIgnoresPadding(pre: string, raw: string, post: string, slug: string)
    requires AllSpace(pre) && AllSpace(post)
    ensures NormalizeCode(pre + raw + post, slug) == NormalizeCode(raw, slug)
  {
    UpperConcat(pre + raw, post);
    UpperConcat(pre, raw);
    UpperKeepsSpace(pre);
    UpperKeepsSpace(post);
    StripPadding(pre, Upper(raw), post);
    assert Strip(Upper(pre + raw + post)) == Strip(Upper(raw));
  }

  // ---------------------------------------------------------------------------
  // itemvar split (OrderChange._process_add and _process_change)
  // ---------------------------------------------------------------------------

  /** How often `c` occurs in `s`. */
  function Occurrences(s: string, c: char): (n: nat)
    ensures n == 0 <==> c !in s
  {
    if s == [] then 0 else (if s[0] == c then 1 else 0) + Occurrences(s[1..], c)
  }

  lemma {:induction false} OccurrencesConcat(s: string, t: string, c: char)
    ensures Occurrences(s + t, c) == Occurrences(s, c) + Occurrences(t, c)
  {
    if s != [] {
      assert (s + t)[1..] == s[1..] + t;
      OccurrencesConcat(s[1..], t, c);
    } else {
      assert s + t == t;
    }
  }

  /** The first position of `c` in `s`. */
  function IndexOf(s: string, c: char): (k: nat)
    requires c in s
    ensures k < |s| && s[k] == c && c !in s[..k]
  {
    if s[0] == c then 0 else 1 + IndexOf(s[1..], c)
  }

  /**
   * `itemid, varid = itemvar.split('-')` when `'-' in itemvar`, else
   * `itemvar, None`. `None` is the ValueError the unpacking raises when
   * the value holds two or more dashes.
   */
  function SplitItemVar(s: string): (r: Option<(string, Option<string>)>)
    ensures '-' !in s ==> r == Some((s, None))
    ensures r.None? <==> Occurrences(s, '-') >= 2
    ensures '-' in s && r.Some? ==> r.value.1.Some?
    ensures r.Some? && r.value.1.Some? ==>
      s == r.value.0 + "-" + r.value.1.value && '-' !in r.value.0 && '-' !in r.value.1.value
  {
    if '-' !in s then Some((s, None))
    else
      var k := IndexOf(s, '-');
      OccurrencesSplitAt(s, k);
      if '-' in s[k + 1..] then None else Some((s[..k], Some(s[k + 1..])))
  }

  lemma {:induction false} OccurrencesSplitAt(s: string, k: nat)
    requires k < |s| && s[k] == '-' && '-' !in s[..k]
    ensures Occurrences(s, '-') == 1 + Occurrences(s[k + 1..], '-')
  {
    var rest := [s[k]] + s[k + 1..];
    assert s == s[..k] + rest;
    OccurrencesConcat(s[..k], rest, '-');
    assert Occurrences(s[..k], '-') == 0;
    assert rest[1..] == s[k + 1..];
    assert Occurrences(rest, '-') == 1 + Occurrences(s[k + 1..], '-');
  }

  /** The form value for an item and an optional variation. */
  function JoinItemVar(item: string, variation: Option<string>): string {
    match variation
    case None => item
    case Some(v) => item + "-" + v
  }

  /** Splitting undoes joining for ids without dashes. */
  lemma {:induction false} SplitJoin(item: string, variation: Option<string>)
    requires '-' !in item
    requires variation.Some? ==> '-' !in variation.value
    ensures SplitItemVar(JoinItemVar(item, variation)) == Some((item, variation))
  {
    if variation.Some? {
      var s := item + "-" + variation.value;
      var k := IndexOf(s, '-');
      assert s[|item|] == '-';
      assert k == |item|;
      assert s[..k] == item;
      assert s[k + 1..] == variation.value;
      assert SplitItemVar(s) == Some((s[..k], Some(s[k + 1..])));
    } else {
      assert JoinItemVar(item, variation) == item;
    }
  }

  /** An item reference: the item id and, when one is given, the variation id. */
  datatype ItemRef = ItemRef(item: string, variation: Option<string>)

  /**
   * The item and variation looked up for an `itemvar` value: a variation is
   * looked up only when `varid` is truthy, so an empty variation id after a
   * trailing dash means "no variation". `None` is the ValueError of the split.
   */
  function ParseItemVar(s: string): (r: Option<ItemRef>)
    ensures r.Some? <==> Occurrences(s, '-') < 2
    ensures r.Some? && r.value.variation.Some? ==>
      r.value.variation.value != "" && s == JoinItemVar(r.value.item, r.value.variation)
    ensures r.Some? && r.value.variation.None? ==> s == r.value.item || s == r.value.item + "-"
    ensures r.Some? ==> '-' !in r.value.item
  {
    match SplitItemVar(s)
    case None => None
    case Some((item, varid)) =>
      if varid.Some? && varid.value != "" then Some(ItemRef(item, varid)) else Some(ItemRef(item, None))
  }

  /** A trailing dash selects the item without a variation. */
  lemma {:induction false} ParseTrailingDash(item: string)
    requires '-' !in item
    ensures ParseItemVar(item + "-") == Some(ItemRef(item, None))
  {
    SplitJoin(item, Some(""));
  }
}

=== FILE: extension.dfy ===
/**
 * Extending the payment term of an order (OrderExtend): a pending order only
 * gets a new deadline; an expired order is revived to pending when, under the
 * event lock, all its positions are still available.
 */
module Extension {
  import opened OrderModel

  /** Whether the event lock was acquired or the wait for it timed out. */
  datatype Lock = Acquired | TimedOut

  /** The answer of the order's availability check: `True` or a reason. */
  datatype Availability = Available | Unavailable(reason: string)

  datatype ExtendOutcome =
    | OnlyForPending
    | FormShownAgain
    | TermChanged
    | Revived
    | NotAvailable(reason: string)
    | ServerBusy

  /**
   * OrderExtend.dispatch followed by OrderExtend.post, for a submitted form
   * (valid or not) carrying a new deadline.
   */
  function Extend(o: OrderState, formValid: bool, newExpires: int, lock: Lock, availability: Availability)
    : (r: Step<ExtendOutcome>)
    ensures r.state != o ==> formValid && (r.outcome == TermChanged || r.outcome == Revived)
    ensures r.outcome == ServerBusy ==> o.status == Expired && lock == TimedOut
    ensures r.outcome.NotAvailable? ==> o.status == Expired && availability == Unavailable(r.outcome.reason)
  {
    if o.status != Pending && o.status != Expired then Step(o, OnlyForPending)
    else if !formValid then Step(o, FormShownAgain)
    else if o.status == Pending then
      Step(o.(expires := newExpires, log := o.log + [ExpiryChanged(newExpires, false)]), TermChanged)
    else
      match lock
      case TimedOut => Step(o, ServerBusy)
      case Acquired =>
        match availability
        case Unavailable(reason) => Step(o, NotAvailable(reason))
        case Available =>
          Step(o.(status := Pending, expires := newExpires, log := o.log + [ExpiryChanged(newExpires, true)]),
               Revived)
  }

  /** Orders that are neither pending nor expired are refused and left as they are. */
  lemma {:induction false} ExtendGate(o: OrderState, formValid: bool, newExpires: int, lock: Lock, availability: Availability)
    requires o.status !in {Pending, Expired}
    ensures Extend(o, formValid, newExpires, lock, availability) == Step(o, OnlyForPending)
  {
  }

  /** A pending order stays pending; only its deadline changes, with one log entry. No lock is needed. */
  lemma {:induction false} ExtendPending(o: OrderState, newExpires: int, lock: Lock, availability: Availability)
    requires o.status == Pending
    ensures var r := Extend(o, true, newExpires, lock, availability).state;
      r.status == Pending && r.expires == newExpires
      && r == o.(expires := newExpires, log := o.log + [ExpiryChanged(newExpires, false)])
  {
  }

  /**
   * An expired order becomes pending if and only if the lock was acquired and
   * every position is still available; otherwise neither its status nor its
   * deadline changes.
   */
  lemma {:induction false} ExtendExpired(o: OrderState, newExpires: int, lock: Lock, availability: Availability)
    requires o.status == Expired
    ensures var r := Extend(o, true, newExpires, lock, availability).state;
      (r.status == Pending <==> lock == Acquired && availability == Available)
      && (r.status == Pending ==> r.expires == newExpires && r.log == o.log + [ExpiryChanged(newExpires, true)])
      && (r.status != Pending ==> r == o)
  {
  }

  /**
   * Whatever the oracles answer, the extension changes at most the status
   * (to pending), the deadline (to the requested one) and appends at most one
   * entry; the manual-payment flag and the invoices are never touched.
   */
  lemma {:induction false} ExtendFrame(o: OrderState, formValid: bool, newExpires: int, lock: Lock, availability: Availability)
    ensures var r := Extend(o, formValid, newExpires, lock, availability).state;
      (r.status == o.status || (o.status == Expired && r.status == Pending))
      && (r.expires == o.expires || r.expires == newExpires)
      && (r.log == o.log || r.log == o.log + [ExpiryChanged(newExpires, o.status == Expired)])
      && r.paymentManual == o.paymentManual && r.invoices == o.invoices
  {
  }
}

=== FILE: invoicing.dfy ===
/**
 * The invoice actions of the order page (OrderInvoiceCreate,
 * OrderInvoiceRegenerate, OrderInvoiceReissue) and the guards in front of them.
 */
module Invoicing {
  import opened Wrappers
  import opened OrderModel

  datatype InvoiceOutcome =
    | CannotGenerate
    | AlreadyExists
    | Generated(id: nat)
    | UnknownInvoice
    | AlreadyCanceled
    | Regenerated(id: nat)
    | Reissued(id: nat)

  /** The values of the event's invoice_generate setting under which an operator may create an invoice. */
  predicate GenerationEnabled(setting: string) {
    setting == "admin" || setting == "user" || setting == "paid"
  }

  /** generate_invoice: a new invoice document with a fresh id. */
  function AddInvoice(invoices: seq<Invoice>): (r: seq<Invoice>)
    ensures |r| == |invoices| + 1 && r[..|invoices|] == invoices && r[|invoices|].cancels.None?
    ensures forall j :: 0 <= j < |invoices| ==> invoices[j].id != r[|invoices|].id
  {
    invoices + [Invoice(NextInvoiceId(invoices), None)]
  }

  /** generate_cancellation: a new cancellation document, with a fresh id, for the given invoice. */
  function AddCancellation(invoices: seq<Invoice>, id: nat): (r: seq<Invoice>)
    ensures |r| == |invoices| + 1 && r[..|invoices|] == invoices && r[|invoices|].cancels == Some(id)
    ensures forall j :: 0 <= j < |invoices| ==> invoices[j].id != r[|invoices|].id
    ensures IsCanceled(r, id)
  {
    invoices + [Invoice(NextInvoiceId(invoices), Some(id))]
  }

  /** OrderInvoiceCreate.post. */
  function CreateInvoice(o: OrderState, setting: string, qualified: bool): (r: Step<InvoiceOutcome>)
    ensures r.outcome.Generated? <==> GenerationEnabled(setting) && qualified && o.invoices == []
    ensures !r.outcome.Generated? ==> r.state == o
    ensures r.state.status == o.status && r.state.expires == o.expires
    ensures r.state == o.(invoices := r.state.invoices, log := r.state.log)
  {
    if !GenerationEnabled(setting) || !qualified then Step(o, CannotGenerate)
    else if o.invoices != [] then Step(o, AlreadyExists)
    else
      var id := NextInvoiceId(o.invoices);
      Step(o.(invoices := AddInvoice(o.invoices), log := o.log + [InvoiceGenerated(id)]), Generated(id))
  }

  /** OrderInvoiceRegenerate.post: the invoice is rebuilt under its own id. */
  function RegenerateInvoice(o: OrderState, id: nat): (r: Step<InvoiceOutcome>)
    ensures r.outcome == Regenerated(id) <==> FindInvoice(o.invoices, id).Some? && !IsCanceled(o.invoices, id)
    ensures r.outcome != Regenerated(id) ==> r.state == o
    ensures r.outcome == Regenerated(id) ==> r.state == o.(log := o.log + [InvoiceRegenerated(id)])
  {
    if FindInvoice(o.invoices, id).None? then Step(o, UnknownInvoice)
    else if IsCanceled(o.invoices, id) then Step(o, AlreadyCanceled)
    else Step(o.(log := o.log + [InvoiceRegenerated(id)]), Regenerated(id))
  }

  /** OrderInvoiceReissue.post: cancel the invoice, then generate a new one. */
  function ReissueInvoice(o: OrderState, id: nat): (r: Step<InvoiceOutcome>)
    ensures r.outcome.Reissued? <==> FindInvoice(o.invoices, id).Some? && !IsCanceled(o.invoices, id)
    ensures !r.outcome.Reissued? ==> r.state == o
    ensures r.outcome.Reissued? ==> IsCanceled(r.state.invoices, id)
    ensures r.state == o.(invoices := r.state.invoices, log := r.state.log)
  {
    if FindInvoice(o.invoices, id).None? then Step(o, UnknownInvoice)
    else if IsCanceled(o.invoices, id) then Step(o, AlreadyCanceled)
    else
      var withCancellation := AddCancellation(o.invoices, id);
      var newId := NextInvoiceId(withCancellation);
      Step(o.(invoices := AddInvoice(withCancellation), log := o.log + [InvoiceReissued(newId)]), Reissued(newId))
  }

  /** No invoice is created while the order has any invoice document. */
  lemma {:induction false} CreateRefusedWhenInvoiceExists(o: OrderState, setting: string, qualified: bool)
    requires o.invoices != []
    ensures CreateInvoice(o, setting, qualified).state == o
  {
  }

  /** A created invoice is the order's only document, is not canceled, and is logged once. */
  lemma {:induction false} CreateAddsOneInvoice(o: OrderState, setting: string)
    requires GenerationEnabled(setting) && o.invoices == []
    ensures var r := CreateInvoice(o, setting, true);
      |r.state.invoices| == 1 && r.state.invoices[0].cancels.None?
      && !IsCanceled(r.state.invoices, r.state.invoices[0].id)
      && r.outcome == Generated(r.state.invoices[0].id)
      && r.state.log == o.log + [InvoiceGenerated(r.state.invoices[0].id)]
    ensures var r := CreateInvoice(o, setting, true).state;
      r.status == o.status && r.paymentManual == o.paymentManual && r.expires == o.expires
  {
  }

  /** A canceled invoice can be neither regenerated nor reissued: nothing changes. */
  lemma {:induction false} CanceledInvoiceRefused(o: OrderState, id: nat)
    requires IsCanceled(o.invoices, id)
    ensures RegenerateInvoice(o, id).state == o
    ensures ReissueInvoice(o, id).state == o
  {
  }

  /**
   * Regenerating keeps the invoice documents as they are; a successful
   * regeneration logs exactly one entry and changes nothing else.
   */
  lemma {:induction false} RegenerateKeepsDocuments(o: OrderState, id: nat)
    ensures var r := RegenerateInvoice(o, id).state;
      r.invoices == o.invoices && (r.log == o.log || r.log == o.log + [InvoiceRegenerated(id)])
    ensures RegenerateInvoice(o, id).outcome == Regenerated(id)
      <==> RegenerateInvoice(o, id).state == o.(log := o.log + [InvoiceRegenerated(id)])
  {
  }

  /**
   * Reissuing an invoice leaves it canceled, adds exactly one cancellation
   * document for it and exactly one new invoice, which is not canceled, and
   * logs one entry naming the new invoice.
   */
  lemma {:induction false} ReissueEffect(o: OrderState, id: nat)
    requires InvoicesWellFormed(o.invoices)
    requires FindInvoice(o.invoices, id).Some? && !IsCanceled(o.invoices, id)
    ensures var r := ReissueInvoice(o, id);
      var n := |o.invoices|;
      |r.state.invoices| == n + 2 && r.state.invoices[..n] == o.invoices
      && r.state.invoices[n].cancels == Some(id)
      && r.state.invoices[n + 1].cancels.None?
      && r.outcome == Reissued(r.state.invoices[n + 1].id)
      && IsCanceled(r.state.invoices, id)
      && !IsCanceled(r.state.invoices, r.state.invoices[n + 1].id)
      && (forall j :: 0 <= j < n ==> r.state.invoices[n + 1].id != o.invoices[j].id)
      && r.state.log == o.log + [InvoiceReissued(r.state.invoices[n + 1].id)]
    ensures var r := ReissueInvoice(o, id).state;
      r.status == o.status && r.paymentManual == o.paymentManual && r.expires == o.expires
  {
    var w := AddCancellation(o.invoices, id);
    var invs := AddInvoice(w);
    var n := |o.invoices|;
    assert invs[n].cancels == Some(id);
    assert w[n].id < NextInvoiceId(w);
    var k := FindInvoice(o.invoices, id).value;
    forall j | 0 <= j < |invs| ensures invs[j].cancels != Some(invs[n + 1].id) {
      if j < n && invs[j].cancels.Some? {
        assert invs[j] == o.invoices[j];
        var i :| 0 <= i < j && o.invoices[i].id == o.invoices[j].cancels.value;
        assert w[i].id < NextInvoiceId(w);
      } else if j == n {
        assert w[k].id == id;
      }
    }
  }

  lemma {:induction false} AddInvoiceWellFormed(invoices: seq<Invoice>)
    requires InvoicesWellFormed(invoices)
    ensures InvoicesWellFormed(AddInvoice(invoices))
  {
    var r := AddInvoice(invoices);
    forall j | 0 <= j < |r| && r[j].cancels.Some?
      ensures exists i :: 0 <= i < j && r[i].id == r[j].cancels.value
    {
      assert r[j] == invoices[j];
      var i :| 0 <= i < j && invoices[i].id == invoices[j].cancels.value;
      assert r[i] == invoices[i];
    }
  }

  lemma {:induction false} AddCancellationWellFormed(invoices: seq<Invoice>, id: nat)
    requires InvoicesWellFormed(invoices)
    requires FindInvoice(invoices, id).Some? && !IsCanceled(invoices, id)
    ensures InvoicesWellFormed(AddCancellation(invoices, id))
  {
    var r := AddCancellation(invoices, id);
    var n := |invoices|;
    var k := FindInvoice(invoices, id).value;
    forall j | 0 <= j < |r| && r[j].cancels.Some?
      ensures exists i :: 0 <= i < j && r[i].id == r[j].cancels.value
    {
      if j < n {
        assert r[j] == invoices[j];
        var i :| 0 <= i < j && invoices[i].id == invoices[j].cancels.value;
        assert r[i] == invoices[i];
      } else {
        assert r[k].id == id;
      }
    }
    forall i, j | 0 <= i < j < |r| && r[i].cancels.Some? ensures r[j].cancels != r[i].cancels {
      if j == n {
        assert r[i] == invoices[i];
      }
    }
  }

  /** Creating, regenerating and reissuing keep ids distinct and never cancel a document twice. */
  lemma {:induction false} InvoiceActionsKeepWellFormed(o: OrderState, setting: string, qualified: bool, id: nat)
    requires InvoicesWellFormed(o.invoices)
    ensures InvoicesWellFormed(CreateInvoice(o, setting, qualified).state.invoices)
    ensures InvoicesWellFormed(RegenerateInvoice(o, id).state.invoices)
    ensures InvoicesWellFormed(ReissueInvoice(o, id).state.invoices)
  {
    AddInvoiceWellFormed(o.invoices);
    if FindInvoice(o.invoices, id).Some? && !IsCanceled(o.invoices, id) {
      AddCancellationWellFormed(o.invoices, id);
      AddInvoiceWellFormed(AddCancellation(o.invoices, id));
    }
  }
}

=== FILE: order_change.dfy ===
/**
 * The order-change page (OrderChange): an add form and one form per position
 * are turned into operations queued on an order change manager, and the
 * manager's commit is reached only if every form was processed cleanly.
 */
module OrderChange {
  import opened Wrappers
  import opened Codes
  import opened OrderModel

  /** An operation queued on the order change manager. */
  datatype Operation =
    | AddPosition(item: string, variation: Option<string>, price: int, addonTo: Option<nat>, subevent: Option<nat>)
    | ChangeItem(position: nat, item: string, variation: Option<string>)
    | ChangePrice(position: nat, price: int)
    | ChangeSubEvent(position: nat, newSubevent: nat)
    | CancelPosition(position: nat)

  /**
   * The submitted add form: whether it validates, its cleaned data, and the
   * OrderError message the manager raises when asked to add, if it does.
   */
  datatype AddForm = AddForm(
    valid: bool,
    add: bool,
    itemvar: string,
    price: int,
    addonTo: Option<nat>,
    subevent: Option<nat>,
    refusal: Option<string>)

  /** The operation chosen in a position's form; `Keep` is any other choice. */
  datatype ChangeKind = Product(itemvar: string) | NewPrice(price: int) | NewSubEvent(subevent: nat) | CancelIt | Keep

  /** The submitted form of one position, with the manager's refusal of its operation, if any. */
  datatype PositionForm = PositionForm(position: nat, valid: bool, operation: ChangeKind, refusal: Option<string>)

  /** How processing a form ends: go on, stop with form errors, or an exception nobody catches. */
  datatype Gate = Continue | Stop | Crash

  /** The gate reached and the operations queued on the way. */
  datatype Processed = Processed(gate: Gate, ops: seq<Operation>)

  /** Asking the manager for one operation: queued, or refused with an OrderError. */
  function Queue(refusal: Option<string>, op: Operation): (r: Processed)
    ensures r.gate != Crash
    ensures r.gate == Continue <==> refusal.None?
    ensures r.gate == Continue ==> r.ops == [op]
    ensures r.gate != Continue ==> r.ops == []
  {
    if refusal.Some? then Processed(Stop, []) else Processed(Continue, [op])
  }

  /** OrderChange._process_add. */
  function AddStep(f: AddForm): (r: Processed)
    ensures r.ops != [] ==> r.gate == Continue && r.ops == [r.ops[0]] && r.ops[0].AddPosition?
    ensures r.gate == Continue <==> f.valid && (!f.add || (ParseItemVar(f.itemvar).Some? && f.refusal.None?))
    ensures r.gate == Crash <==> f.valid && f.add && ParseItemVar(f.itemvar).None?
    ensures r.ops != [] <==> r.gate == Continue && f.add
    ensures r.gate == Continue && f.add ==>
      var ref := ParseItemVar(f.itemvar).value;
      r.ops == [AddPosition(ref.item, ref.variation, f.price, f.addonTo, f.subevent)]
  {
    if !f.valid then Processed(Stop, [])
    else if !f.add then Processed(Continue, [])
    else
      match ParseItemVar(f.itemvar)
      case None => Processed(Crash, [])
      case Some(ref) => Queue(f.refusal, AddPosition(ref.item, ref.variation, f.price, f.addonTo, f.subevent))
  }

  /** One round of the loop of OrderChange._process_change. */
  function PositionStep(p: PositionForm): (r: Processed)
    ensures r.ops != [] ==>
      r.gate == Continue && r.ops == [r.ops[0]] && !r.ops[0].AddPosition? && r.ops[0].position == p.position
    ensures !p.valid ==> r.gate == Stop
    ensures r.gate == Continue <==>
      p.valid
      && (p.operation.Keep? || ((!p.operation.Product? || ParseItemVar(p.operation.itemvar).Some?) && p.refusal.None?))
    ensures r.gate == Crash <==> p.valid && p.operation.Product? && ParseItemVar(p.operation.itemvar).None?
    ensures r.gate == Continue ==> r.ops == ChosenOperation(p)
  {
    if !p.valid then Processed(Stop, [])
    else
      match p.operation
      case Product(itemvar) =>
        (match ParseItemVar(itemvar)
         case None => Processed(Crash, [])
         case Some(ref) => Queue(p.refusal, ChangeItem(p.position, ref.item, ref.variation)))
      case NewPrice(price) => Queue(p.refusal, ChangePrice(p.position, price))
      case NewSubEvent(subevent) => Queue(p.refusal, ChangeSubEvent(p.position, subevent))
      case CancelIt => Queue(p.refusal, CancelPosition(p.position))
      case Keep => Processed(Continue, [])
  }

  /**
   * The operations a position's form asks for once its item reference parses:
   * one per choice, none for any other choice.
   */
  function ChosenOperation(p: PositionForm): seq<Operation>
    requires !p.operation.Product? || ParseItemVar(p.operation.itemvar).Some?
  {
    match p.operation
    case Product(itemvar) =>
      var ref := ParseItemVar(itemvar).value;
      [ChangeItem(p.position, ref.item, ref.variation)]
    case NewPrice(price) => [ChangePrice(p.position, price)]
    case NewSubEvent(subevent) => [ChangeSubEvent(p.position, subevent)]
    case CancelIt => [CancelPosition(p.position)]
    case Keep => []
  }

  /** OrderChange._process_change: the positions in order, up to the first one that does not continue. */
  function ChangeSteps(ps: seq<PositionForm>): (r: Processed)
    ensures |r.ops| <= |ps|
  {
    if ps == [] then Processed(Continue, [])
    else
      var first := PositionStep(ps[0]);
      if first.gate != Continue then Processed(first.gate, [])
      else
        var rest := ChangeSteps(ps[1..]);
        Processed(rest.gate, first.ops + rest.ops)
  }

  /** Processing two lists of positions one after the other. */
  lemma {:induction false} ChangeStepsConcat(a: seq<PositionForm>, b: seq<PositionForm>)
    ensures ChangeSteps(a + b) ==
      if ChangeSteps(a).gate != Continue then ChangeSteps(a)
      else Processed(ChangeSteps(b).gate, ChangeSteps(a).ops + ChangeSteps(b).ops)
  {
    if a == [] {
      assert a + b == b;
    } else {
      var first := PositionStep(a[0]);
      assert (a + b)[0] == a[0];
      assert (a + b)[1..] == a[1..] + b;
      if first.gate == Continue {
        ChangeStepsConcat(a[1..], b);
        var tail := ChangeSteps(a[1..]);
        if tail.gate == Continue {
          assert first.ops + (tail.ops + ChangeSteps(b).ops) == (first.ops + tail.ops) + ChangeSteps(b).ops;
        }
      }
    }
  }

  /** One more position after a list that continued. */
  lemma {:induction false} ChangeStepsSnoc(ps: seq<PositionForm>, p: PositionForm)
    requires ChangeSteps(ps).gate == Continue
    ensures ChangeSteps(ps + [p]) == Processed(PositionStep(p).gate, ChangeSteps(ps).ops + PositionStep(p).ops)
  {
    ChangeStepsConcat(ps, [p]);
    assert [p][1..] == [];
    assert ChangeSteps([p]) == Processed(PositionStep(p).gate, PositionStep(p).ops);
  }

  /** Once processing has stopped, later positions make no difference. */
  lemma {:induction false} ChangeStepsStopped(ps: seq<PositionForm>, rest: seq<PositionForm>)
    requires ChangeSteps(ps).gate != Continue
    ensures ChangeSteps(ps + rest) == ChangeSteps(ps)
  {
    ChangeStepsConcat(ps, rest);
  }

  /** Processing continues past all positions exactly when every single position continues. */
  lemma {:induction false} ChangeStepsContinue(ps: seq<PositionForm>)
    ensures ChangeSteps(ps).gate == Continue <==> forall k :: 0 <= k < |ps| ==> PositionStep(ps[k]).gate == Continue
  {
    if ps != [] {
      ChangeStepsContinue(ps[1..]);
      assert forall k :: 1 <= k < |ps| ==> ps[k] == ps[1..][k - 1];
    }
  }

  /**
   * The loop stops at the first position that does not continue: what was
   * queued comes from the positions before it, and nothing after it is looked at.
   */
  lemma {:induction false} StopsAtFirstFailure(ps: seq<PositionForm>, k: nat)
    requires k < |ps| && PositionStep(ps[k]).gate != Continue
    requires forall j :: 0 <= j < k ==> PositionStep(ps[j]).gate == Continue
    ensures ChangeSteps(ps) == Processed(PositionStep(ps[k]).gate, ChangeSteps(ps[..k]).ops)
    ensures forall j :: k < j < |ps| ==> ChangeSteps(ps) == ChangeSteps(ps[..j])
  {
    var before := ps[..k];
    assert forall j :: 0 <= j < |before| ==> before[j] == ps[j];
    ChangeStepsContinue(before);
    ChangeStepsAt(before, ps[k..]);
    assert ps == before + ps[k..];
    forall j | k < j < |ps| ensures ChangeSteps(ps) == ChangeSteps(ps[..j]) {
      assert ps[..j] == before + ps[k..j];
      ChangeStepsAt(before, ps[k..j]);
    }
  }

  /** After a list that continued, a list whose first position stops. */
  lemma {:induction false} ChangeStepsAt(before: seq<PositionForm>, after: seq<PositionForm>)
    requires ChangeSteps(before).gate == Continue
    requires after != [] && PositionStep(after[0]).gate != Continue
    ensures ChangeSteps(before + after) == Processed(PositionStep(after[0]).gate, ChangeSteps(before).ops)
  {
    ChangeStepsConcat(before, after);
    assert ChangeSteps(after) == Processed(PositionStep(after[0]).gate, []);
    assert ChangeSteps(before).ops + [] == ChangeSteps(before).ops;
  }

  /** Every queued change operation targets one of the listed positions, and none is an addition. */
  lemma {:induction false} ChangeStepsTargets(ps: seq<PositionForm>)
    ensures forall op :: op in ChangeSteps(ps).ops ==>
      !op.AddPosition? && exists j :: 0 <= j < |ps| && op.position == ps[j].position
  {
    if ps != [] {
      ChangeStepsTargets(ps[1..]);
      forall op | op in ChangeSteps(ps).ops
        ensures !op.AddPosition? && exists j :: 0 <= j < |ps| && op.position == ps[j].position
      {
        if op in PositionStep(ps[0]).ops {
          assert op.position == ps[0].position;
        } else {
          var j :| 0 <= j < |ps[1..]| && op.position == ps[1..][j].position;
          assert ps[1..][j] == ps[j + 1];
        }
      }
    }
  }

  datatype ChangeOutcome = OnlyForPendingOrPaid | FormErrors | CommitFailed(reason: string) | Changed | Crashed

  /** What one request did: its outcome, whether a manager was made, what was queued, whether commit was called. */
  datatype ChangeRun = ChangeRun(outcome: ChangeOutcome, managerCreated: bool, queued: seq<Operation>, commitCalled: bool)

  /** OrderChange.dispatch and OrderChange.post, with the commit's OrderError message, if any. */
  function ChangeRequest(status: Status, add: AddForm, ps: seq<PositionForm>, commitError: Option<string>)
    : (r: ChangeRun)
    ensures r.managerCreated <==> status == Pending || status == Paid
    ensures !r.managerCreated ==> r.outcome == OnlyForPendingOrPaid && r.queued == [] && !r.commitCalled
  {
    if status != Pending && status != Paid then ChangeRun(OnlyForPendingOrPaid, false, [], false)
    else Post(AddStep(add), ChangeSteps(ps), commitError)
  }

  /**
   * OrderChange.post once the add form gave `a` and the position forms gave
   * `c`; `c` only matters when the add form continued.
   */
  function Post(a: Processed, c: Processed, commitError: Option<string>): (r: ChangeRun)
    ensures r.managerCreated
    ensures r.commitCalled <==> a.gate == Continue && c.gate == Continue
    ensures r.outcome == Changed <==> r.commitCalled && commitError.None?
    ensures r.outcome == Crashed <==> a.gate == Crash || (a.gate == Continue && c.gate == Crash)
    ensures r.queued == if a.gate == Continue then a.ops + c.ops else a.ops
  {
    match a.gate
    case Crash => ChangeRun(Crashed, true, a.ops, false)
    case Stop => ChangeRun(FormErrors, true, a.ops, false)
    case Continue =>
      match c.gate
      case Crash => ChangeRun(Crashed, true, a.ops + c.ops, false)
      case Stop => ChangeRun(FormErrors, true, a.ops + c.ops, false)
      case Continue =>
        match commitError
        case Some(e) => ChangeRun(CommitFailed(e), true, a.ops + c.ops, true)
        case None => ChangeRun(Changed, true, a.ops + c.ops, true)
  }

  /** Orders that are neither pending nor paid are refused before a manager exists. */
  lemma {:induction false} ChangeGate(status: Status, add: AddForm, ps: seq<PositionForm>, commitError: Option<string>)
    requires status != Pending && status != Paid
    ensures ChangeRequest(status, add, ps, commitError) == ChangeRun(OnlyForPendingOrPaid, false, [], false)
  {
  }

  /**
   * commit() is called if and only if the order is pending or paid, the add
   * form went through and every position's form went through.
   */
  lemma {:induction false} CommitOnlyWhenClean(status: Status, add: AddForm, ps: seq<PositionForm>, commitError: Option<string>)
    ensures ChangeRequest(status, add, ps, commitError).commitCalled <==>
      (status == Pending || status == Paid) && AddStep(add).gate == Continue
      && forall k :: 0 <= k < |ps| ==> PositionStep(ps[k]).gate == Continue
  {
    ChangeStepsContinue(ps);
  }

  /** When the add form does not go through, no change operation is queued and nothing is committed. */
  lemma {:induction false} AddFailureQueuesNothing(status: Status, add: AddForm, ps: seq<PositionForm>, commitError: Option<string>)
    requires AddStep(add).gate != Continue
    ensures ChangeRequest(status, add, ps, commitError).queued == []
    ensures !ChangeRequest(status, add, ps, commitError).commitCalled
  {
  }

  /** A successful change committed the added position (if any) followed by every position's operation. */
  lemma {:induction false} ChangedQueuesAll(status: Status, add: AddForm, ps: seq<PositionForm>)
    requires ChangeRequest(status, add, ps, None).outcome == Changed
    ensures ChangeRequest(status, add, ps, None).queued == AddStep(add).ops + ChangeSteps(ps).ops
    ensures forall k :: 0 <= k < |ps| ==> PositionStep(ps[k]).gate == Continue
  {
    var a := AddStep(add);
    var c := ChangeSteps(ps);
    assert status == Pending || status == Paid;
    assert a.gate == Continue && c.gate == Continue;
    ChangeStepsContinue(ps);
  }

  /** The order change manager, seen from the view: the queue of operations and whether commit was called. */
  class ChangeManager {
    var operations: seq<Operation>
    var commitCalled: bool

    constructor ()
      ensures operations == [] && !commitCalled
    {
      operations := [];
      commitCalled := false;
    }

    /**
     * add_position, change_item, change_price, change_subevent and cancel:
     * the operation is queued, or refused with an OrderError and not queued.
     */
    method Queue(op: Operation, refusal: Option<string>) returns (ok: bool)
      modifies this
      ensures ok == refusal.None?
      ensures operations == old(operations) + (if ok then [op] else [])
      ensures commitCalled == old(commitCalled)
    {
      ok := refusal.None?;
      if ok {
        operations := operations + [op];
      }
    }

    /** commit(), called at most once; its OrderError, if any, is given. */
    method Commit(error: Option<string>) returns (ok: bool)
      requires !commitCalled
      modifies this
      ensures commitCalled && operations == old(operations) && ok == error.None?
    {
      commitCalled := true;
      ok := error.None?;
    }
  }

  /** OrderChange._process_add on a manager. */
  method ProcessAdd(ocm: ChangeManager, f: AddForm) returns (gate: Gate)
    modifies ocm
    ensures gate == AddStep(f).gate
    ensures ocm.operations == old(ocm.operations) + AddStep(f).ops
    ensures ocm.commitCalled == old(ocm.commitCalled)
  {
    if !f.valid {
      return Stop;
    }
    if !f.add {
      return Continue;
    }
    var ref := ParseItemVar(f.itemvar);
    if ref.None? {
      return Crash;
    }
    var ok := ocm.Queue(AddPosition(ref.value.item, ref.value.variation, f.price, f.addonTo, f.subevent), f.refusal);
    gate := if ok then Continue else Stop;
  }

  /** The body of the loop of OrderChange._process_change, for one position. */
  method ProcessPosition(ocm: ChangeManager, p: PositionForm) returns (gate: Gate)
    modifies ocm
    ensures gate == PositionStep(p).gate
    ensures ocm.operations == old(ocm.operations) + PositionStep(p).ops
    ensures ocm.commitCalled == old(ocm.commitCalled)
  {
    if !p.valid {
      return Stop;
    }
    var op: Operation;
    match p.operation {
      case Keep =>
        return Continue;
      case Product(itemvar) =>
        var ref := ParseItemVar(itemvar);
        if ref.None? {
          return Crash;
        }
        op := ChangeItem(p.position, ref.value.item, ref.value.variation);
      case NewPrice(price) =>
        op := ChangePrice(p.position, price);
      case NewSubEvent(subevent) =>
        op := ChangeSubEvent(p.position, subevent);
      case CancelIt =>
        op := CancelPosition(p.position);
    }
    var ok := ocm.Queue(op, p.refusal);
    gate := if ok then Continue else Stop;
  }

  /** OrderChange._process_change: the positions in order, returning at the first that does not continue. */
  method ProcessChange(ocm: ChangeManager, ps: seq<PositionForm>) returns (gate: Gate)
    modifies ocm
    ensures gate == ChangeSteps(ps).gate
    ensures ocm.operations == old(ocm.operations) + ChangeSteps(ps).ops
    ensures ocm.commitCalled == old(ocm.commitCalled)
  {
    var i := 0;
    while i < |ps|
      invariant 0 <= i <= |ps|
      invariant ChangeSteps(ps[..i]).gate == Continue
      invariant ocm.operations == old(ocm.operations) + ChangeSteps(ps[..i]).ops
      invariant ocm.commitCalled == old(ocm.commitCalled)
    {
      ghost var done := ChangeSteps(ps[..i]).ops;
      ghost var step := PositionStep(ps[i]);
      gate := ProcessPosition(ocm, ps[i]);
      assert ps[..i + 1] == ps[..i] + [ps[i]];
      ChangeStepsSnoc(ps[..i], ps[i]);
      assert ocm.operations == old(ocm.operations) + (done + step.ops);
      if gate != Continue {
        assert ps == ps[..i + 1] + ps[i + 1..];
        ChangeStepsStopped(ps[..i + 1], ps[i + 1..]);
        return;
      }
      i := i + 1;
    }
    assert ps[..i] == ps;
    gate := Continue;
  }

  /**
   * OrderChange.dispatch and OrderChange.post for an order in the given
   * status. The manager is null when dispatch refused the request.
   */
  method PostChange(status: Status, add: AddForm, ps: seq<PositionForm>, commitError: Option<string>)
    returns (outcome: ChangeOutcome, ocm: ChangeManager?)
    ensures var run := ChangeRequest(status, add, ps, commitError);
      outcome == run.outcome && (ocm == null <==> !run.managerCreated)
      && (ocm != null ==> fresh(ocm) && ocm.operations == run.queued && ocm.commitCalled == run.commitCalled)
  {
    if status != Pending && status != Paid {
      return OnlyForPendingOrPaid, null;
    }
    ghost var addStep := AddStep(add);
    ghost var changeSteps := ChangeSteps(ps);
    assert ChangeRequest(status, add, ps, commitError) == Post(addStep, changeSteps, commitError);
    ocm := new ChangeManager();
    var a := ProcessAdd(ocm, add);
    assert [] + addStep.ops == addStep.ops;
    if a != Continue {
      return if a == Crash then Crashed else FormErrors, ocm;
    }
    var c := ProcessChange(ocm, ps);
    if c != Continue {
      return if c == Crash then Crashed else FormErrors, ocm;
    }
    var ok := ocm.Commit(commitError);
    outcome := if ok then Changed else CommitFailed(commitError.value);
  }
}

=== FILE: order_model.dfy ===
/**
 * The parts of an order that the control views change: its status, the
 * manual-payment flag, the payment deadline, its audit log and its invoices.
 */
module OrderModel {
  import opened Wrappers

  datatype Status = Pending | Paid | Expired | Canceled | Refunded

  /** The one-letter code pretix stores for a status; the views compare request values with it. */
  function StatusCode(s: Status): string {
    match s
    case Pending => "n"
    case Paid => "p"
    case Expired => "e"
    case Canceled => "c"
    case Refunded => "r"
  }

  /** The status a one-letter code stands for, if any. */
  function StatusOf(code: string): (s: Option<Status>)
    ensures s.Some? ==> StatusCode(s.value) == code
  {
    if code == "n" then Some(Pending)
    else if code == "p" then Some(Paid)
    else if code == "e" then Some(Expired)
    else if code == "c" then Some(Canceled)
    else if code == "r" then Some(Refunded)
    else None
  }

  /** Every status has a code, and the code gives that status back. */
  lemma {:induction false} StatusCodeRoundTrip(s: Status)
    ensures StatusOf(StatusCode(s)) == Some(s)
  {
  }

  /** An audit-log entry of the order. */
  datatype LogEntry =
    | OrderPaid                                   // written by mark_order_paid
    | OrderCanceled                               // written by cancel_order
    | OrderUnpaid
    | OrderExpired
    | ExpiryChanged(expires: int, stateChange: bool)
    | InvoiceGenerated(invoice: nat)
    | InvoiceRegenerated(invoice: nat)
    | InvoiceReissued(invoice: nat)

  /** The action type under which an entry is logged. */
  function ActionType(e: LogEntry): string {
    match e
    case OrderPaid => "pretix.event.order.paid"
    case OrderCanceled => "pretix.event.order.canceled"
    case OrderUnpaid => "pretix.event.order.unpaid"
    case OrderExpired => "pretix.event.order.expired"
    case ExpiryChanged(_, _) => "pretix.event.order.expirychanged"
    case InvoiceGenerated(_) => "pretix.event.order.invoice.generated"
    case InvoiceRegenerated(_) => "pretix.event.order.invoice.regenerated"
    case InvoiceReissued(_) => "pretix.event.order.invoice.reissued"
  }

  /**
   * An invoice document of the order. A cancellation document names the
   * invoice it cancels; an invoice is canceled when such a document exists.
   */
  datatype Invoice = Invoice(id: nat, cancels: Option<nat>)

  /** A snapshot of the order's fields. */
  datatype OrderState = OrderState(
    status: Status,
    paymentManual: bool,
    expires: int,
    log: seq<LogEntry>,
    invoices: seq<Invoice>)

  /** The new state of an order after a view acted on it, with what the operator is told. */
  datatype Step<+O> = Step(state: OrderState, outcome: O)

  predicate IsCanceled(invoices: seq<Invoice>, id: nat) {
    exists k :: 0 <= k < |invoices| && invoices[k].cancels == Some(id)
  }

  /** `order.invoices.get(pk=id)`: the position of the invoice with that id. */
  function FindInvoice(invoices: seq<Invoice>, id: nat): (k: Option<nat>)
    ensures k.Some? ==> k.value < |invoices| && invoices[k.value].id == id
    ensures k.None? ==> forall j :: 0 <= j < |invoices| ==> invoices[j].id != id
  {
    if invoices == [] then None
    else if invoices[|invoices| - 1].id == id then Some(|invoices| - 1)
    else FindInvoice(invoices[..|invoices| - 1], id)
  }

  /** The id the database hands out next: larger than every id so far. */
  function NextInvoiceId(invoices: seq<Invoice>): (n: nat)
    ensures forall j :: 0 <= j < |invoices| ==> invoices[j].id < n
  {
    if invoices == [] then 1
    else
      var m := NextInvoiceId(invoices[..|invoices| - 1]);
      if invoices[|invoices| - 1].id < m then m else invoices[|invoices| - 1].id + 1
  }

  /**
   * Invoice ids are distinct, a cancellation names an earlier document, and
   * no document is canceled twice.
   */
  predicate InvoicesWellFormed(invoices: seq<Invoice>) {
    && (forall i, j :: 0 <= i < j < |invoices| ==> invoices[i].id != invoices[j].id)
    && (forall j :: 0 <= j < |invoices| && invoices[j].cancels.Some? ==>
          exists i :: 0 <= i < j && invoices[i].id == invoices[j].cancels.value)
    && (forall i, j :: 0 <= i < j < |invoices| && invoices[i].cancels.Some? ==>
          invoices[j].cancels != invoices[i].cancels)
  }
}

=== FILE: order_views.dfy ===
/**
 * The order as the control views see it: one object whose fields the POST
 * handlers update in place. Each handler is proved to do exactly what the
 * specification function of its module says.
 */
module OrderViews {
  import opened Wrappers
  import opened OrderModel
  import opened Transitions
  import opened Extension
  import opened Invoicing

  class Order {
    var status: Status
    var paymentManual: bool
    var expires: int
    var log: seq<LogEntry>
    var invoices: seq<Invoice>

    /** The order's fields as a value. */
    function State(): OrderState
      reads this
    {
      OrderState(status, paymentManual, expires, log, invoices)
    }

    ghost predicate Valid()
      reads this
    {
      InvoicesWellFormed(invoices)
    }

    constructor (s: OrderState)
      requires InvoicesWellFormed(s.invoices)
      ensures Valid() && State() == s
    {
      status := s.status;
      paymentManual := s.paymentManual;
      expires := s.expires;
      log := s.log;
      invoices := s.invoices;
    }

    /** order.log_action: the audit log is only appended to. */
    method LogAction(e: LogEntry)
      modifies this`log
      ensures log == old(log) + [e]
    {
      log := log + [e];
    }

    /** mark_order_paid(order, manual=...), whose result is given as an oracle. */
    method RecordPayment(manual: bool, paid: PaidOutcome) returns (outcome: TransitionOutcome)
      modifies this
      ensures Step(State(), outcome) == MarkOrderPaid(old(State()), manual, paid)
    {
      if paid.QuotaExceeded? {
        return QuotaError(paid.reason);
      }
      paymentManual := manual;
      status := Paid;
      LogAction(OrderPaid);
      outcome := if paid == MailFailed then MarkedPaidMailFailed else MarkedPaid;
    }

    /** cancel_order(order). */
    method RecordCancellation()
      modifies this
      ensures State() == CancelOrder(old(State()))
    {
      status := Canceled;
      LogAction(OrderCanceled);
    }

    /** OrderTransition.post with the requested status code. */
    method PostTransition(to: string, paid: PaidOutcome) returns (outcome: TransitionOutcome)
      requires Valid()
      modifies this
      ensures Valid()
      ensures Step(State(), outcome) == Transition(old(State()), to, paid)
    {
      if (status == Pending || status == Expired) && to == "p" {
        outcome := RecordPayment(true, paid);
      } else if status == Pending && to == "c" {
        RecordCancellation();
        outcome := OrderWasCanceled;
      } else if status == Paid && to == "n" {
        status := Pending;
        paymentManual := true;
        LogAction(OrderUnpaid);
        outcome := MarkedUnpaid;
      } else if status == Pending && to == "e" {
        status := Expired;
        LogAction(OrderExpired);
        outcome := MarkedExpired;
      } else if status == Paid && to == "r" {
        outcome := RefundDelegated;
      } else {
        outcome := Ignored;
      }
    }

    /** OrderExtend.dispatch and OrderExtend.post with a submitted deadline. */
    method PostExtend(formValid: bool, newExpires: int, lock: Lock, availability: Availability)
      returns (outcome: ExtendOutcome)
      requires Valid()
      modifies this
      ensures Valid()
      ensures Step(State(), outcome) == Extend(old(State()), formValid, newExpires, lock, availability)
    {
      if status != Pending && status != Expired {
        return OnlyForPending;
      }
      if !formValid {
        return FormShownAgain;
      }
      if status == Pending {
        LogAction(ExpiryChanged(newExpires, false));
        expires := newExpires;
        outcome := TermChanged;
      } else if lock == TimedOut {
        outcome := ServerBusy;
      } else if availability.Unavailable? {
        outcome := NotAvailable(availability.reason);
      } else {
        expires := newExpires;
        status := Pending;
        LogAction(ExpiryChanged(newExpires, true));
        outcome := Revived;
      }
    }

    /** generate_invoice(order): returns the id of the new invoice. */
    method GenerateInvoice() returns (id: nat)
      modifies this`invoices
      ensures invoices == AddInvoice(old(invoices)) && id == NextInvoiceId(old(invoices))
    {
      id := NextInvoiceId(invoices);
      invoices := invoices + [Invoice(id, None)];
    }

    /** generate_cancellation(invoice). */
    method GenerateCancellation(id: nat)
      modifies this`invoices
      ensures invoices == AddCancellation(old(invoices), id)
    {
      invoices := invoices + [Invoice(NextInvoiceId(invoices), Some(id))];
    }

    /** OrderInvoiceCreate.post. */
    method PostInvoiceCreate(setting: string, qualified: bool) returns (outcome: InvoiceOutcome)
      requires Valid()
      modifies this
      ensures Valid()
      ensures Step(State(), outcome) == CreateInvoice(old(State()), setting, qualified)
    {
      InvoiceActionsKeepWellFormed(State(), setting, qualified, 0);
      if !GenerationEnabled(setting) || !qualified {
        outcome := CannotGenerate;
      } else if invoices != [] {
        outcome := AlreadyExists;
      } else {
        var id := GenerateInvoice();
        LogAction(InvoiceGenerated(id));
        outcome := Generated(id);
      }
    }

    /** OrderInvoiceRegenerate.post for the invoice with the given id. */
    method PostInvoiceRegenerate(id: nat) returns (outcome: InvoiceOutcome)
      requires Valid()
      modifies this
      ensures Valid()
      ensures Step(State(), outcome) == RegenerateInvoice(old(State()), id)
    {
      if FindInvoice(invoices, id).None? {
        outcome := UnknownInvoice;
      } else if IsCanceled(invoices, id) {
        outcome := AlreadyCanceled;
      } else {
        LogAction(InvoiceRegenerated(id));
        outcome := Regenerated(id);
      }
    }

    /** OrderInvoiceReissue.post for the invoice with the given id. */
    method PostInvoiceReissue(id: nat) returns (outcome: InvoiceOutcome)
      requires Valid()
      modifies this
      ensures Valid()
      ensures Step(State(), outcome) == ReissueInvoice(old(State()), id)
    {
      ghost var before := State();
      if FindInvoice(invoices, id).None? {
        outcome := UnknownInvoice;
      } else if IsCanceled(invoices, id) {
        outcome := AlreadyCanceled;
      } else {
        GenerateCancellation(id);
        ghost var withCancellation := invoices;
        var newId := GenerateInvoice();
        LogAction(InvoiceReissued(newId));
        outcome := Reissued(newId);
        assert newId == NextInvoiceId(withCancellation);
        assert State() == before.(invoices := AddInvoice(withCancellation), log := before.log + [InvoiceReissued(newId)]);
      }
      InvoiceActionsKeepWellFormed(before, "", false, id);
    }
  }
}

=== FILE: transitions.dfy ===
/**
 * The status transitions an operator can request on an order
 * (OrderTransition): mark paid, cancel, mark unpaid, mark expired, refund.
 */
module Transitions {
  import opened Wrappers
  import opened OrderModel

  datatype Action = MarkPaid | Cancel | MarkUnpaid | MarkExpired | Refund

  /** The status an action leads to. */
  function Target(a: Action): Status {
    match a
    case MarkPaid => Paid
    case Cancel => Canceled
    case MarkUnpaid => Pending
    case MarkExpired => Expired
    case Refund => Refunded
  }

  /** The branch of the POST handler that a requested status code selects in a given status. */
  function Dispatch(status: Status, to: string): (a: Option<Action>)
    ensures a.Some? ==> StatusOf(to) == Some(Target(a.value))
  {
    if (status == Pending || status == Expired) && to == "p" then Some(MarkPaid)
    else if status == Pending && to == "c" then Some(Cancel)
    else if status == Paid && to == "n" then Some(MarkUnpaid)
    else if status == Pending && to == "e" then Some(MarkExpired)
    else if status == Paid && to == "r" then Some(Refund)
    else None
  }

  /** The order life cycle: the status changes an operator may request. */
  predicate Edge(from: Status, to: Status) {
    match (from, to)
    case (Pending, Paid) => true
    case (Expired, Paid) => true
    case (Pending, Canceled) => true
    case (Pending, Expired) => true
    case (Paid, Pending) => true
    case (Paid, Refunded) => true
    case _ => false
  }

  /** A request is acted on exactly when it names a life-cycle successor of the current status. */
  lemma {:induction false} DispatchFollowsLifeCycle(status: Status, to: string)
    ensures Dispatch(status, to).Some? <==> StatusOf(to).Some? && Edge(status, StatusOf(to).value)
  {
  }

  /** What the GET handler shows. */
  datatype Page = CancelConfirmation | RefundForm | MethodNotAllowed

  /** The GET handler offers a confirmation page only for a cancel or a refund the POST handler would perform. */
  function TransitionPage(status: Status, to: string): (p: Page)
    ensures p == CancelConfirmation <==> Dispatch(status, to) == Some(Cancel)
    ensures p == RefundForm <==> Dispatch(status, to) == Some(Refund)
  {
    if status == Pending && to == "c" then CancelConfirmation
    else if status == Paid && to == "r" then RefundForm
    else MethodNotAllowed
  }

  /** The three ways mark_order_paid can end. */
  datatype PaidOutcome = PaidOk | QuotaExceeded(reason: string) | MailFailed

  /** What the operator is told after a POST. */
  datatype TransitionOutcome =
    | MarkedPaid
    | MarkedPaidMailFailed
    | QuotaError(reason: string)
    | OrderWasCanceled
    | MarkedUnpaid
    | MarkedExpired
    | RefundDelegated
    | Ignored

  /**
   * mark_order_paid: on a quota failure it raises before touching the order;
   * otherwise the order is paid and logged, and a failing confirmation mail
   * comes after that.
   */
  function MarkOrderPaid(o: OrderState, manual: bool, paid: PaidOutcome): (r: Step<TransitionOutcome>)
    ensures paid.QuotaExceeded? ==> r == Step(o, QuotaError(paid.reason))
    ensures !paid.QuotaExceeded? ==>
      r.state.status == Paid && r.state.paymentManual == manual && r.state.log == o.log + [OrderPaid]
    ensures r.state.expires == o.expires && r.state.invoices == o.invoices
    ensures r.outcome == MarkedPaidMailFailed <==> paid == MailFailed
  {
    match paid
    case QuotaExceeded(reason) => Step(o, QuotaError(reason))
    case PaidOk => Step(o.(status := Paid, paymentManual := manual, log := o.log + [OrderPaid]), MarkedPaid)
    case MailFailed =>
      Step(o.(status := Paid, paymentManual := manual, log := o.log + [OrderPaid]), MarkedPaidMailFailed)
  }

  /** cancel_order: the order is canceled and logged; nothing else of it changes. */
  function CancelOrder(o: OrderState): (r: OrderState)
    ensures r.status == Canceled && r.log == o.log + [OrderCanceled]
    ensures r.paymentManual == o.paymentManual && r.expires == o.expires && r.invoices == o.invoices
  {
    o.(status := Canceled, log := o.log + [OrderCanceled])
  }

  /** OrderTransition.post on an order, the requested code and the outcome of mark_order_paid. */
  function Transition(o: OrderState, to: string, paid: PaidOutcome): (r: Step<TransitionOutcome>)
    ensures r.outcome == Ignored <==> Dispatch(o.status, to).None?
    ensures r.state.status != o.status ==>
      Dispatch(o.status, to).Some? && r.state.status == Target(Dispatch(o.status, to).value)
    ensures Dispatch(o.status, to) == Some(MarkPaid) && !paid.QuotaExceeded? ==> r.state.paymentManual
    ensures Dispatch(o.status, to) == Some(Cancel) ==> r.state.paymentManual == o.paymentManual
  {
    match Dispatch(o.status, to)
    case None => Step(o, Ignored)
    case Some(MarkPaid) => MarkOrderPaid(o, true, paid)
    case Some(Cancel) => Step(CancelOrder(o), OrderWasCanceled)
    case Some(MarkUnpaid) =>
      Step(o.(status := Pending, paymentManual := true, log := o.log + [OrderUnpaid]), MarkedUnpaid)
    case Some(MarkExpired) => Step(o.(status := Expired, log := o.log + [OrderExpired]), MarkedExpired)
    case Some(Refund) => Step(o, RefundDelegated)
  }

  /** Any (status, code) pair outside the table leaves the order as it was, log included. */
  lemma {:induction false} TransitionOutsideTable(o: OrderState, to: string, paid: PaidOutcome)
    requires Dispatch(o.status, to).None?
    ensures Transition(o, to, paid) == Step(o, Ignored)
  {
  }

  /** The status after a POST is the old one or a life-cycle successor of it. */
  lemma {:induction false} TransitionFollowsLifeCycle(o: OrderState, to: string, paid: PaidOutcome)
    ensures var s := Transition(o, to, paid).state.status;
      s == o.status || Edge(o.status, s)
  {
  }

  /**
   * A status change writes exactly one log entry, named after the new status;
   * no status change writes none. The log is only appended to.
   */
  lemma {:induction false} TransitionLogsOneEntryPerChange(o: OrderState, to: string, paid: PaidOutcome)
    ensures var r := Transition(o, to, paid).state;
      if r.status == o.status then r.log == o.log
      else (|r.log| == |o.log| + 1 && r.log[..|o.log|] == o.log
            && ActionType(r.log[|o.log|]) == "pretix.event.order." + ActionWord(r.status))
  {
    ActionWordsInActionTypes();
    var r := Transition(o, to, paid).state;
    match Dispatch(o.status, to)
    case None =>
    case Some(MarkPaid) =>
      if !paid.QuotaExceeded? {
        assert r.log == o.log + [OrderPaid];
      }
    case Some(Cancel) =>
      assert r.log == o.log + [OrderCanceled];
    case Some(MarkUnpaid) =>
      assert r.log == o.log + [OrderUnpaid];
    case Some(MarkExpired) =>
      assert r.log == o.log + [OrderExpired];
    case Some(Refund) =>
  }

  lemma ActionWordsInActionTypes()
    ensures ActionType(OrderPaid) == "pretix.event.order." + ActionWord(Paid)
    ensures ActionType(OrderCanceled) == "pretix.event.order." + ActionWord(Canceled)
    ensures ActionType(OrderUnpaid) == "pretix.event.order." + ActionWord(Pending)
    ensures ActionType(OrderExpired) == "pretix.event.order." + ActionWord(Expired)
  {
  }

  /** The last word of the action type logged when a transition reaches the status. */
  function ActionWord(s: Status): string {
    match s
    case Pending => "unpaid"
    case Paid => "paid"
    case Expired => "expired"
    case Canceled => "canceled"
    case Refunded => "refunded"
  }

  /**
   * The view's own branches never touch the deadline or the invoices, and
   * neither do mark_order_paid and cancel_order as they are modelled here.
   */
  lemma {:induction false} TransitionKeepsDeadlineAndInvoices(o: OrderState, to: string, paid: PaidOutcome)
    ensures Transition(o, to, paid).state.expires == o.expires
    ensures Transition(o, to, paid).state.invoices == o.invoices
  {
  }

  /** A quota failure leaves the order unpaid and unchanged. */
  lemma {:induction false} QuotaFailureKeepsOrder(o: OrderState, to: string, reason: string)
    requires Dispatch(o.status, to) == Some(MarkPaid)
    ensures Transition(o, to, QuotaExceeded(reason)) == Step(o, QuotaError(reason))
    ensures Transition(o, to, QuotaExceeded(reason)).state.status != Paid
  {
  }

  /** A failed confirmation mail is only a warning: the order stays paid. */
  lemma {:induction false} MailFailureStillPaid(o: OrderState, to: string)
    requires Dispatch(o.status, to) == Some(MarkPaid)
    ensures Transition(o, to, MailFailed).state == Transition(o, to, PaidOk).state
    ensures Transition(o, to, MailFailed).state.status == Paid
    ensures Transition(o, to, MailFailed).outcome == MarkedPaidMailFailed
  {
  }

  /** Mark paid: mark_order_paid with manual=True; a recorded payment is flagged as manual. */
  lemma {:induction false} MarkPaidEffect(o: OrderState, to: string, paid: PaidOutcome)
    requires Dispatch(o.status, to) == Some(MarkPaid)
    ensures Transition(o, to, paid) == MarkOrderPaid(o, true, paid)
    ensures !paid.QuotaExceeded? ==> Transition(o, to, paid).state.paymentManual
  {
  }

  /** Cancel: cancel_order alone; the manual flag and every other field but status and log stay. */
  lemma {:induction false} CancelEffect(o: OrderState, paid: PaidOutcome)
    requires o.status == Pending
    ensures Transition(o, "c", paid) == Step(CancelOrder(o), OrderWasCanceled)
    ensures Transition(o, "c", paid).state == o.(status := Canceled, log := o.log + [OrderCanceled])
  {
  }

  /** Mark unpaid: pending again, manual payment required, one entry; nothing else changes. */
  lemma {:induction false} MarkUnpaidEffect(o: OrderState, paid: PaidOutcome)
    requires o.status == Paid
    ensures Transition(o, "n", paid)
      == Step(o.(status := Pending, paymentManual := true, log := o.log + [OrderUnpaid]), MarkedUnpaid)
  {
  }

  /** Mark expired: expired, one entry; nothing else changes. */
  lemma {:induction false} MarkExpiredEffect(o: OrderState, paid: PaidOutcome)
    requires o.status == Pending
    ensures Transition(o, "e", paid) == Step(o.(status := Expired, log := o.log + [OrderExpired]), MarkedExpired)
  {
  }
}

=== FILE: wrappers.dfy ===
/** Optional values, as Python's `None` or a value. */
module Wrappers {

  datatype Option<+T> = None | Some(value: T)
}
